=== FILE: README.md ===
# Travel organizer: packing-list generator and list editing, in Dafny

This project models the core of a small trip-planning web application. A user
describes a trip (duration in days, a temperature range, activities) and gets
a generated packing checklist. The user can then tick items as packed, change
quantities, and add or remove items. The project also proves properties of
that model.

Modules, one per source file plus shared pieces:

- `Wrappers` (wrappers.dfy): `Option`, for `T | null` values and optional fields.
- `Seqs` (seqs.dfy): `Filter`, which models `Array.prototype.filter`. It comes with `Positions`, an independent description of the indices filter keeps, and lemmas on order, concatenation and the all-kept and none-kept cases. Every `.filter` in the core is this one function.
- `Strings` (strings.dfy): decimal rendering of a non-negative integer, as in the template literal `` `item-${index}` ``, with its reading-back function. Also `String.prototype.trim`.
- `Types` (types.dfy): the records and enumerations of `src/types/index.ts`. It adds `TripDraft` (a trip without id), `ItemDraft` (an item without id) and `ItemUpdate` (`Partial<PackingItem>`, one `Option` per field).
- `PackingTemplates` (packing_templates.dfy): the 30-row template table and `GeneratePackingList`, as pure functions.
  - An activity-free template is kept when it has no temperature range or when its range overlaps the trip's.
  - An activity template is kept when the trip shares one of its activities.
  - Each kept template becomes the unpacked item `item-<position>`. Its quantity is `max(1, ceil(baseQuantity * duration / 7))`.
- `PackingListView` (packing_list_view.dfy): the packing-list component.
  - Grouping by category is a method with a loop over a map, like the source's `reduce`.
  - The packed and total counts.
  - The guards on the toggle and quantity callbacks.
  - The add-item form state, as class `AddItemState`.
- `Page` (page.dfy): the home page as class `Home`. Its four fields are `currentTrip`, `packingList`, `trips` and `lists`, and its methods are the page's handlers. The item transforms they use are functions: merge, remove, write-back and find.
  - Invariant `Valid()`: the list on screen is stored in `lists` and belongs to the trip on screen.
  - Every handler preserves it.
- `TripForm` (trip_form.dfy): the form's initial values, the activity checkbox handler and the submit handler, as class `TripFormState` plus the pure `ToggledActivities`. Submitting calls the page's trip handler, as the page wires `onSubmit` to it.

Integer arithmetic stands in for the source's floating point in the quantity formula. `Math.ceil(b * (d / 7))` equals `(b*d + 6) / 7` with floor division for every integer `d` of realistic size. Base quantities are 1, 2 or 3 (`TableIsWellFormed`), so `b*d` is a multiple of 7 only when `d` is. In that case the floating-point quotient is exact. Otherwise it lies strictly between two integers, and rounding cannot push it onto one.

The clock readings that make ids (`Date.now()`) are method parameters (`tripStamp`, `listStamp`, `itemStamp`). The ids are rendered as the source renders them, for example `"trip-" + NatToString(tripStamp)`.

## Model

| member | source | states |
|---|---|---|
| `PackingTemplates.GeneratePackingList` | src/utils/packingTemplates.ts:54-81 | one item per kept template, at most 30. Item `i` has id `item-i` and its template's name, category and priority. Its quantity is the scaled base quantity and at least 1. It is unpacked and has no notes |
| `PackingTemplates.ScaledQuantity` | src/utils/packingTemplates.ts:78 | the quantity is the least `q >= 1` with `baseQuantity * duration <= 7q`, i.e. `max(1, ceil(b*d/7))` |
| `PackingTemplates.QuantityMonotoneInDuration` | src/utils/packingTemplates.ts:78 | a longer trip never gets a smaller quantity |
| `PackingTemplates.WholeWeeksScaleLinearly` | src/utils/packingTemplates.ts:78 | a trip of `w` whole weeks gets `baseQuantity * w` |
| `PackingTemplates.OneWeekUsesBaseQuantities` | src/utils/packingTemplates.ts:74-81 | on a 7-day trip every generated item has its template's base quantity |
| `PackingTemplates.TableIsWellFormed` | src/utils/packingTemplates.ts:12-52 | every base quantity is 1, 2 or 3, and every temperature range has min <= max |
| `PackingTemplates.TemplateNamesDistinct` | src/utils/packingTemplates.ts:12-52 | no two templates share a name |
| `PackingTemplates.IsRelevant` | src/utils/packingTemplates.ts:60-72 | a template without activities or range is always kept. For ordered ranges, an activity-free template with a range is kept iff some temperature lies in both ranges. An activity template is kept iff the trip shares one of its activities |
| `PackingTemplates.GeneratedInTableOrder` | src/utils/packingTemplates.ts:60-81 | item `i` comes from table row `rows[i]`. The rows strictly increase, and a row is used iff it is relevant to the trip |
| `PackingTemplates.GeneratedIffRelevant` | src/utils/packingTemplates.ts:60-72 | the list holds an item named after row `j` iff row `j` passes the filter |
| `PackingTemplates.CommonItemsAlwaysGenerated` | src/utils/packingTemplates.ts:62-67 | an activity-free template without a temperature range is on every list, whatever the inputs |
| `PackingTemplates.WeatherItemsGeneratedIffOverlap` | src/utils/packingTemplates.ts:64-66 | an activity-free template with a range is on the list iff `tempMax >= min && tempMin <= max` |
| `PackingTemplates.ActivityItemsGeneratedIffShared` | src/utils/packingTemplates.ts:71 | an activity template is on the list iff the trip has one of its activities; temperature plays no part |
| `PackingTemplates.OverlapMeansSharedTemperature` | src/utils/packingTemplates.ts:65 | for ordered ranges, the overlap test holds iff some temperature lies in both ranges. The trip form does not require `tempMin <= tempMax`; for a reversed trip range see the next row |
| `PackingTemplates.ReversedTripRangeKeepsLongPants` | src/utils/packingTemplates.ts:65 | with the reversed trip range 20..18, which holds no temperature, the overlap test still keeps the long pants (range -10..25), and they are on the generated list |
| `PackingTemplates.MoreActivitiesNeverDropItems` | src/utils/packingTemplates.ts:71 | adding activities never shortens the list, and every template kept before is still kept |
| `PackingTemplates.MildWeekWithoutActivities` | src/utils/packingTemplates.ts:12-81 | a 7-day, 15..25 degree trip without activities gets 11 items: the ten first rows, then the rain jacket |
| `PackingTemplates.ItemIdInjective` | src/utils/packingTemplates.ts:75 | distinct positions give distinct ids `item-<index>` |
| `PackingTemplates.GeneratedIdsDistinct` | src/utils/packingTemplates.ts:74-75 | the generated items' ids are pairwise distinct |
| `Strings.NatToString` | src/utils/packingTemplates.ts:75 | the rendering of an index is a non-empty digit string without a leading zero, one character long iff the index is below 10 |
| `Strings.DecimalRoundTrip` | src/utils/packingTemplates.ts:75 | reading back a rendered index gives the index |
| `Strings.NatToStringInjective` | src/utils/packingTemplates.ts:75 | distinct indices render differently |
| `Strings.Trim` | src/components/PackingList.tsx:45 | the result is the input with its leading and trailing whitespace removed: a slice of the input, preceded and followed only by whitespace, neither starting nor ending with whitespace. It is empty iff the name holds only whitespace |
| `PackingListView.GroupByCategory` | src/components/PackingList.tsx:60-66 | the groups are keyed by exactly the categories present. Each group holds that category's items in list order, and every item is in its own category's group |
| `PackingListView.GroupSizesSumToTotal` | src/components/PackingList.tsx:60-66 | over all categories, the group sizes add up to the number of items |
| `PackingListView.EveryCategoryListedOnce` | src/components/PackingList.tsx:13-22 | the category table lists every category exactly once |
| `PackingListView.PackedCount` | src/components/PackingList.tsx:68-69 | the count is the number of positions holding a packed item. So packed <= total, with equality iff every item is packed and zero iff none is |
| `PackingListView.HandleTogglePacked` | src/components/PackingList.tsx:33-35 | the update asked for names the item and sets only `packed` |
| `PackingListView.HandleQuantityChange` | src/components/PackingList.tsx:37-41 | an update is issued iff the quantity is positive, and it sets only `quantity` |
| `PackingListView.AddItemState.constructor` | src/components/PackingList.tsx:25-31 | the form starts with the defaults (empty name, others, 1, medium) and is hidden |
| `PackingListView.AddItemState.HandleAddItem` | src/components/PackingList.tsx:43-58 | submission needs a non-empty name and a quantity of at least 1. An item is then added iff the name has a non-whitespace character. The added item has the form's fields and `packed = false`. After an add the form is reset to the defaults and hidden; otherwise nothing changes |
| `PackingListView.AddItemState.ToggleAddForm` | src/components/PackingList.tsx:82 | the button flips the form's visibility and keeps its fields |
| `PackingListView.AddItemState.CancelAdd` | src/components/PackingList.tsx:136 | cancelling hides the form and keeps its fields |
| `Page.Merge` | src/app/page.tsx:70 | every field the update sets overrides the item's own, and every field it omits keeps the item's value |
| `Page.MergeIdempotent` | src/app/page.tsx:69-71 | merging an update twice equals merging it once; merging the empty update is the identity |
| `Page.UpdateItems` | src/app/page.tsx:69-71 | length and order are kept, every item with the id has the update merged in, and every other item is unchanged |
| `Page.UpdateOfAbsentIdChangesNothing` | src/app/page.tsx:69-71 | updating an id no item carries leaves the items as they were |
| `Page.UpdateItemsIdempotent` | src/app/page.tsx:69-71 | repeating an update has no further effect, even when it changes the id |
| `Page.ToggleChangesOnlyPacked` | src/components/PackingList.tsx:33-35 | ticking through the view changes `packed` on the items with that id and nothing else |
| `Page.QuantityEditsKeepQuantitiesPositive` | src/components/PackingList.tsx:37-41 | quantity edits through the view keep all quantities at least 1 |
| `Page.RemoveItems` | src/app/page.tsx:109 | no remaining item has the removed id |
| `Page.RemoveKeepsOthersInOrder` | src/app/page.tsx:109 | removal keeps exactly the items with another id, in their original order |
| `Page.AddThenRemoveRestores` | src/app/page.tsx:88-109 | removing an item just appended under a fresh id gives back the earlier items |
| `Page.ReplaceList` | src/app/page.tsx:80-82 | the write-back keeps length and order. Each list with the current id becomes the updated list, and every other list is unchanged |
| `Page.ReplaceListStoresUpdated` | src/app/page.tsx:80-82 | the updated list is stored whenever a list with its id was. Every stored list is the updated one or an old list with another id |
| `Page.FindListForTrip` | src/app/page.tsx:128 | the result is the first list whose `tripId` matches, or none iff no list matches |
| `Page.TripCardCounts` | src/app/page.tsx:149-151 | the trip card shows 0/0 when the trip has no list. Otherwise it shows the first list of the trip: its packed count (`PackedCount` of its items) over its length, so packed <= total |
| `Page.ListName` | src/app/page.tsx:54 | a generated list's name is the trip's name followed by ` - Packing List` |
| `Page.Home.constructor` | src/app/page.tsx:10-13 | the page starts with no trip, no list and empty histories |
| `Page.Home.HandleTripSubmit` | src/app/page.tsx:37-64 | appends exactly one trip and one list. The list is named after the trip, has the trip's id as `tripId` and holds `GeneratePackingList` of the trip's data. Both become current |
| `Page.Home.Commit` | src/app/page.tsx:73-82 | the list on screen gets the new items and is written back into `lists` under its id. Other entries, trips and the current trip are unchanged |
| `Page.Home.HandleItemUpdate` | src/app/page.tsx:66-83 | with no list nothing changes. Otherwise the items are `UpdateItems` of the old ones, the entry with the list's id becomes the new list, and all else is unchanged |
| `Page.Home.HandleItemAdd` | src/app/page.tsx:85-104 | with no list nothing changes. Otherwise exactly one item, with id `item-<stamp>`, is appended after the unchanged old items, and the list is written back |
| `Page.Home.HandleItemRemove` | src/app/page.tsx:106-120 | with no list nothing changes. Otherwise the items are `RemoveItems` of the old ones, and the list is written back |
| `Page.Home.HandleNewTrip` | src/app/page.tsx:122-125 | clears the current trip and list and keeps `trips` and `lists` |
| `Page.Home.HandleLoadTrip` | src/app/page.tsx:127-131 | the trip becomes current, with the first list of that trip or with none |
| `TripForm.ToggledActivities` | src/components/TripForm.tsx:26-33 | checking appends the activity at the end. Unchecking removes every occurrence and keeps exactly the other activities |
| `TripForm.CheckboxReflectsLastChange` | src/components/TripForm.tsx:125-126 | after a change, the checkbox shows ticked iff the change checked it |
| `TripForm.UncheckKeepsOthersInOrder` | src/components/TripForm.tsx:31 | unchecking keeps the other activities in their original order |
| `TripForm.CheckThenUncheckRestores` | src/components/TripForm.tsx:29-31 | checking then unchecking an activity that was not selected restores the original list |
| `TripForm.TripFormState.constructor` | src/components/TripForm.tsx:11-18 | the form starts with duration 7, 15..25 degrees, no activities, and empty name and destination |
| `TripForm.TripFormState.HandleActivityChange` | src/components/TripForm.tsx:26-33 | only `activities` changes, to `ToggledActivities` of the old list |
| `TripForm.TripFormState.HandleNameChange` | src/components/TripForm.tsx:53 | typing in the name field replaces the name and keeps every other field |
| `TripForm.TripFormState.HandleSubmit` | src/components/TripForm.tsx:35-38 | submission needs a non-empty name and a duration of 1 to 30 days. The form's values then go to the page's trip handler: the trip `trip-<stamp>` built from them is appended and current. The list on screen, also appended to `lists`, is the generated list for the form's duration, temperatures and activities, named after the trip |
| `TripForm.SubmitWithDefaults` | src/components/TripForm.tsx:11-38 | filling in only a (non-empty) name and submitting on a fresh page puts a 7-day, 15..25 degree trip of that name without activities on screen. Its list belongs to that trip and holds 11 unpacked items: the first ten template rows, then the rain jacket |

## Left out

- Loading and saving `trips` and `lists` in `localStorage` with `JSON.parse`/`JSON.stringify` (src/app/page.tsx:15-35): browser storage and a library serializer. The page starts empty.
- `createdAt` and `updatedAt`: wall-clock values. The `Date.now()` readings in ids are parameters.
- Progress percentages and `Math.round` (src/components/PackingList.tsx:70, src/app/page.tsx:152): floating point. Only the integer counts are modelled.
- `parseInt` on form inputs and its NaN result, with the input setters (src/components/TripForm.tsx onChange handlers; src/components/PackingList.tsx:103, 110, 123, 183): a library parser and event plumbing. Durations, temperatures and quantities are integers.
- JSX rendering, CSS classes and `e.preventDefault()`.
- The browser's constraint validation of the trip form (the `required` name at src/components/TripForm.tsx:56, the duration's `min="1"` and `max="30"` at lines 81-82) appears only as `HandleSubmit`'s precondition. The page's own trip handler accepts any draft, and the other input setters are not modelled. Likewise the add-item form's `required` name (src/components/PackingList.tsx:106) and the quantity's `min="1"` (line 121) appear only as `HandleAddItem`'s precondition; the page's add handler accepts any item.
- `ScaledQuantity`: computed with integers. The floating-point `b * (d / 7)` is not modelled; it gives the same result for integer durations far below 2^50 days.
- `GroupByCategory`: returns a map, so the order in which categories were first met is not modelled. `Object.entries` uses that order to lay the groups out on screen.
- `Merge`: a present field always overrides. An update that names a field with the value `undefined` is not distinguished from one that omits it.
- React's batching of state setters: each handler is one atomic update of the four fields.
- The API-backed hooks and page variant (src/hooks/useApi.ts, src/app/page-backup.tsx), the HTTP routes under src/app/api/ and test-db.js are not part of this model: they are network and database plumbing.

=== FILE: packing_list_view.dfy ===
/** The packing-list view: grouping items by category, the packed and total
    counts, the guards on its edit callbacks, and the state of its add-item form. */
module PackingListView {
  import opened Wrappers
  import opened Types
  import opened Seqs
  import opened Strings

  // ---------------------------------------------------------------------------
  // Grouping by category

  /** Every category, in the order the view's colour table lists them. */
  const AllCategories: seq<Category> := [
    Category.Camping, Category.Cycling, Category.Hiking, Category.Hygiene,
    Category.Clothes, Category.Common, Category.Devices, Category.Others
  ]

  function InCategory(c: Category): PackingItem -> bool {
    (item: PackingItem) => item.category == c
  }

  /** The items of category `c`, in list order: what the group of `c` should hold. */
  function ItemsIn(items: seq<PackingItem>, c: Category): seq<PackingItem> {
    Filter(items, InCategory(c))
  }

  /** Extending the items by one extends only the group of that item's category. */
  lemma ItemsInStep(items: seq<PackingItem>, n: nat)
    requires n < |items|
    ensures forall c ::
      ItemsIn(items[..n + 1], c) == ItemsIn(items[..n], c) + (if items[n].category == c then [items[n]] else [])
  {
    assert items[..n + 1][..n] == items[..n];
  }

  /** A category none of the items has gets an empty group. */
  lemma ItemsInAbsent(items: seq<PackingItem>, c: Category)
    requires forall i :: 0 <= i < |items| ==> items[i].category != c
    ensures ItemsIn(items, c) == []
  {
    FilterEmptyIff(items, InCategory(c));
  }

  /** The reduce that builds the category groups: a group is created the first
      time its category is met, and each item is pushed onto its own group. */
  method GroupByCategory(items: seq<PackingItem>) returns (groups: map<Category, seq<PackingItem>>)
    ensures forall c :: c in groups <==> exists i :: 0 <= i < |items| && items[i].category == c
    ensures forall c :: c in groups ==> groups[c] == ItemsIn(items, c)
    ensures forall i :: 0 <= i < |items| ==> items[i].category in groups && items[i] in groups[items[i].category]
  {
    groups := map[];
    var n := 0;
    while n < |items|
      invariant 0 <= n <= |items|
      invariant forall c :: c in groups <==> exists i :: 0 <= i < n && items[i].category == c
      invariant forall c :: c in groups ==> groups[c] == ItemsIn(items[..n], c)
    {
      var item := items[n];
      ItemsInStep(items, n);
      if item.category !in groups {
        ItemsInAbsent(items[..n], item.category);
        groups := groups[item.category := []];
      }
      groups := groups[item.category := groups[item.category] + [item]];
      n := n + 1;
    }
    assert items[..n] == items;
    forall i | 0 <= i < |items|
      ensures items[i] in groups[items[i].category]
    {
      assert InCategory(items[i].category)(items[i]);
    }
  }

  /** The sum of the group sizes of the categories in `cats`. */
  function GroupSizes(items: seq<PackingItem>, cats: seq<Category>): nat
    decreases |cats|
  {
    if cats == [] then 0 else |ItemsIn(items, cats[0])| + GroupSizes(items, cats[1..])
  }

  lemma {:induction false} GroupSizesOfOne(x: PackingItem, cats: seq<Category>)
    ensures GroupSizes([x], cats) == multiset(cats)[x.category]
    decreases |cats|
  {
    if cats != [] {
      GroupSizesOfOne(x, cats[1..]);
      assert cats == [cats[0]] + cats[1..];
      assert [x][..0] == [];
    }
  }

  lemma {:induction false} GroupSizesAppend(a: seq<PackingItem>, b: seq<PackingItem>, cats: seq<Category>)
    ensures GroupSizes(a + b, cats) == GroupSizes(a, cats) + GroupSizes(b, cats)
    decreases |cats|
  {
    if cats != [] {
      FilterAppend(a, b, InCategory(cats[0]));
      GroupSizesAppend(a, b, cats[1..]);
    }
  }

  lemma EveryCategoryListedOnce(c: Category)
    ensures multiset(AllCategories)[c] == 1
  {
  }

  /** Grouping loses and duplicates nothing: over all categories the group
      sizes add up to the number of items. */
  lemma {:induction false} GroupSizesSumToTotal(items: seq<PackingItem>)
    ensures GroupSizes(items, AllCategories) == |items|
    decreases |items|
  {
    if items != [] {
      var init, last := items[..|items| - 1], items[|items| - 1];
      assert items == init + [last];
      GroupSizesAppend(init, [last], AllCategories);
      GroupSizesSumToTotal(init);
      GroupSizesOfOne(last, AllCategories);
      EveryCategoryListedOnce(last.category);
    }
  }

  // ---------------------------------------------------------------------------
  // Counts

  function IsPacked(item: PackingItem): bool {
    item.packed
  }

  /** The number of packed items, as shown next to the total. */
  function PackedCount(items: seq<PackingItem>): (n: nat)
    ensures n <= |items|
    ensures n == |items| <==> forall i :: 0 <= i < |items| ==> items[i].packed
    ensures n == 0 <==> forall i :: 0 <= i < |items| ==> !items[i].packed
    ensures n == |Positions(items, IsPacked)|
  {
    FilterKeepsOrder(items, IsPacked);
    FilterFullIff(items, IsPacked);
    FilterEmptyIff(items, IsPacked);
    |Filter(items, IsPacked)|
  }

  // ---------------------------------------------------------------------------
  // Edit callbacks

  /** A call of the view's `onItemUpdate` callback. */
  datatype UpdateCall = UpdateCall(itemId: string, updates: ItemUpdate)

  /** Ticking or unticking an item asks for an update of its `packed` field alone. */
  function HandleTogglePacked(itemId: string, packed: bool): (call: UpdateCall)
    ensures call.itemId == itemId
    ensures call.updates.packed == Some(packed)
    ensures call.updates.(packed := None) == NoUpdate
  {
    UpdateCall(itemId, NoUpdate.(packed := Some(packed)))
  }

  /** A new quantity is forwarded, as an update of `quantity` alone, only when it is positive. */
  function HandleQuantityChange(itemId: string, quantity: int): (call: Option<UpdateCall>)
    ensures call.Some? <==> quantity > 0
    ensures call.Some? ==> call.value.itemId == itemId && call.value.updates.quantity == Some(quantity)
    ensures call.Some? ==> call.value.updates.(quantity := None) == NoUpdate
  {
    if quantity > 0 then Some(UpdateCall(itemId, NoUpdate.(quantity := Some(quantity)))) else None
  }

  // ---------------------------------------------------------------------------
  // The add-item form

  /** The fields of the add-item form. */
  datatype NewItemForm = NewItemForm(name: string, category: Category, quantity: int, priority: Priority)

  /** What the add-item form holds when it is opened for the first time and after every add. */
  const DefaultNewItem: NewItemForm := NewItemForm("", Category.Others, 1, Priority.Medium)

  class AddItemState {
    var newItem: NewItemForm
    var showAddForm: bool

    constructor ()
      ensures newItem == DefaultNewItem && !showAddForm
    {
      newItem := DefaultNewItem;
      showAddForm := false;
    }

    /** Submitting the form adds an unpacked item built from its fields, resets
        the form and hides it, but only when the name holds a non-blank
        character; otherwise nothing happens. The browser submits only when the
        required name is filled in and the quantity is at least 1. */
    method HandleAddItem() returns (added: Option<ItemDraft>)
      requires newItem.name != [] && newItem.quantity >= 1
      modifies this
      ensures added.Some? <==> exists i :: 0 <= i < |old(newItem.name)| && !IsWhitespace(old(newItem.name)[i])
      ensures added.Some? ==>
        && added.value == ItemDraft(old(newItem.name), old(newItem.category), old(newItem.quantity),
                                    false, old(newItem.priority), None)
        && newItem == DefaultNewItem && !showAddForm
      ensures added.None? ==> newItem == old(newItem) && showAddForm == old(showAddForm)
    {
      if Trim(newItem.name) != [] {
        added := Some(ItemDraft(newItem.name, newItem.category, newItem.quantity, false, newItem.priority, None));
        newItem := DefaultNewItem;
        showAddForm := false;
      } else {
        added := None;
      }
    }

    /** The "Add Item" button shows or hides the form. */
    method ToggleAddForm()
      modifies this
      ensures showAddForm == !old(showAddForm) && newItem == old(newItem)
    {
      showAddForm := !showAddForm;
    }

    /** The "Cancel" button hides the form and keeps what was typed. */
    method CancelAdd()
      modifies this
      ensures !showAddForm && newItem == old(newItem)
    {
      showAddForm := false;
    }
  }
}

=== FILE: packing_templates.dfy ===
/** The rule-based packing-list generator: a fixed table of item templates,
    filtered by the trip's temperature range and activities, each kept
    template turned into an unpacked item whose quantity scales with the
    trip's length in weeks. */
module PackingTemplates {
  import opened Wrappers
  import opened Types
  import opened Seqs
  import opened Strings

  /** An inclusive range of temperatures in degrees Celsius. */
  datatype TempRange = TempRange(min: int, max: int)

  datatype ItemTemplate = ItemTemplate(
    name: string,
    category: Category,
    baseQuantity: int,
    activities: seq<Activity>,
    tempRange: Option<TempRange>,
    priority: Priority)

  /** The template table: common items, weather-dependent clothing, then the
      gear of each activity. */
  const ItemTemplates: seq<ItemTemplate> := [
    ItemTemplate("Underwear", Category.Clothes, 3, [], None, Priority.High),
    ItemTemplate("Socks", Category.Clothes, 3, [], None, Priority.High),
    ItemTemplate("Phone charger", Category.Devices, 1, [], None, Priority.High),
    ItemTemplate("Toothbrush", Category.Hygiene, 1, [], None, Priority.High),
    ItemTemplate("Toothpaste", Category.Hygiene, 1, [], None, Priority.High),
    ItemTemplate("Shampoo", Category.Hygiene, 1, [], None, Priority.Medium),
    ItemTemplate("T-shirts", Category.Clothes, 2, [], Some(TempRange(15, 40)), Priority.High),
    ItemTemplate("Shorts", Category.Clothes, 2, [], Some(TempRange(20, 40)), Priority.High),
    ItemTemplate("Long pants", Category.Clothes, 1, [], Some(TempRange(-10, 25)), Priority.High),
    ItemTemplate("Sweater", Category.Clothes, 1, [], Some(TempRange(-10, 15)), Priority.High),
    ItemTemplate("Winter jacket", Category.Clothes, 1, [], Some(TempRange(-10, 5)), Priority.High),
    ItemTemplate("Rain jacket", Category.Clothes, 1, [], Some(TempRange(0, 25)), Priority.Medium),
    ItemTemplate("Tent", Category.Camping, 1, [Activity.Camping], None, Priority.High),
    ItemTemplate("Sleeping bag", Category.Camping, 1, [Activity.Camping], None, Priority.High),
    ItemTemplate("Sleeping pad", Category.Camping, 1, [Activity.Camping], None, Priority.High),
    ItemTemplate("Camping stove", Category.Camping, 1, [Activity.Camping], None, Priority.High),
    ItemTemplate("Cookware set", Category.Camping, 1, [Activity.Camping], None, Priority.Medium),
    ItemTemplate("Headlamp", Category.Camping, 1, [Activity.Camping], None, Priority.High),
    ItemTemplate("Lantern", Category.Camping, 1, [Activity.Camping], None, Priority.Medium),
    ItemTemplate("Helmet", Category.Cycling, 1, [Activity.Cycling], None, Priority.High),
    ItemTemplate("Cycling shorts", Category.Cycling, 2, [Activity.Cycling], None, Priority.High),
    ItemTemplate("Cycling gloves", Category.Cycling, 1, [Activity.Cycling], None, Priority.Medium),
    ItemTemplate("Bike repair kit", Category.Cycling, 1, [Activity.Cycling], None, Priority.High),
    ItemTemplate("Bike pump", Category.Cycling, 1, [Activity.Cycling], None, Priority.Medium),
    ItemTemplate("Hiking boots", Category.Hiking, 1, [Activity.Hiking], None, Priority.High),
    ItemTemplate("Backpack", Category.Hiking, 1, [Activity.Hiking], None, Priority.High),
    ItemTemplate("Water bottle", Category.Hiking, 2, [Activity.Hiking], None, Priority.High),
    ItemTemplate("Trail map", Category.Hiking, 1, [Activity.Hiking], None, Priority.Medium),
    ItemTemplate("First aid kit", Category.Hiking, 1, [Activity.Hiking], None, Priority.High),
    ItemTemplate("Hiking poles", Category.Hiking, 2, [Activity.Hiking], None, Priority.Medium)
  ]

  /** Whether a template belongs on the list of a trip: an activity-free
      template is kept when it has no temperature range or when its range
      overlaps the trip's; an activity template is kept when the trip includes
      one of its activities, whatever the temperature. */
  function IsRelevant(t: ItemTemplate, tempMin: int, tempMax: int, activities: seq<Activity>): (kept: bool)
    ensures |t.activities| == 0 && t.tempRange.None? ==> kept
    ensures |t.activities| == 0 && t.tempRange.Some? && tempMin <= tempMax && t.tempRange.value.min <= t.tempRange.value.max ==>
      (kept <==> exists x :: InRange(x, tempMin, tempMax) && InRange(x, t.tempRange.value.min, t.tempRange.value.max))
    ensures |t.activities| > 0 ==> (kept <==> exists a :: a in t.activities && a in activities)
  {
    if |t.activities| == 0 then
      match t.tempRange
      case Some(range) =>
        var overlap := tempMax >= range.min && tempMin <= range.max;
        if tempMin <= tempMax && range.min <= range.max then
          OverlapMeansSharedTemperature(tempMin, tempMax, range);
          overlap
        else
          overlap
      case None => true
    else
      exists a :: a in t.activities && a in activities
  }

  function Relevance(tempMin: int, tempMax: int, activities: seq<Activity>): ItemTemplate -> bool {
    t => IsRelevant(t, tempMin, tempMax, activities)
  }

  /** The templates kept for a trip, in table order. */
  function RelevantTemplates(tempMin: int, tempMax: int, activities: seq<Activity>): (kept: seq<ItemTemplate>)
    ensures |kept| <= |ItemTemplates| == 30
  {
    Filter(ItemTemplates, Relevance(tempMin, tempMax, activities))
  }

  /** The quantity of an item for a trip of `duration` days: the base quantity
      is meant for one week, scaled linearly and rounded up, and never below one.
      The result is the least positive `q` with `baseQuantity * duration <= 7 * q`. */
  function ScaledQuantity(baseQuantity: int, duration: int): (q: int)
    ensures q >= 1
    ensures baseQuantity * duration <= 7 * q
    ensures q == 1 || 7 * (q - 1) < baseQuantity * duration
  {
    var weeksRoundedUp := (baseQuantity * duration + 6) / 7;
    if weeksRoundedUp < 1 then 1 else weeksRoundedUp
  }

  /** The id of the generated item at position `index`. */
  function ItemId(index: nat): string {
    "item-" + NatToString(index)
  }

  /** The packing list generated for a trip: one unpacked item per kept
      template, with the template's name, category and priority, a quantity
      scaled to the duration, and the id `item-<position>`. */
  function GeneratePackingList(duration: int, tempMin: int, tempMax: int, activities: seq<Activity>): (items: seq<PackingItem>)
    ensures var kept := RelevantTemplates(tempMin, tempMax, activities);
      && |items| == |kept| <= 30
      && forall i :: 0 <= i < |items| ==>
        && items[i].id == ItemId(i)
        && items[i].name == kept[i].name
        && items[i].category == kept[i].category
        && items[i].priority == kept[i].priority
        && items[i].quantity == ScaledQuantity(kept[i].baseQuantity, duration)
        && items[i].quantity >= 1
        && !items[i].packed
        && items[i].notes == None
  {
    var kept := RelevantTemplates(tempMin, tempMax, activities);
    seq(|kept|, i requires 0 <= i < |kept| =>
      PackingItem(ItemId(i), kept[i].name, kept[i].category,
                  ScaledQuantity(kept[i].baseQuantity, duration), false, kept[i].priority, None))
  }

  // ---------------------------------------------------------------------------
  // The template table

  /** Every base quantity is 1, 2 or 3 and every temperature range is non-empty. */
  lemma TableIsWellFormed()
    ensures forall j :: 0 <= j < |ItemTemplates| ==> 1 <= ItemTemplates[j].baseQuantity <= 3
    ensures forall j :: 0 <= j < |ItemTemplates| && ItemTemplates[j].tempRange.Some? ==>
      ItemTemplates[j].tempRange.value.min <= ItemTemplates[j].tempRange.value.max
  {
  }

  /** No two templates share a name, so an item's name tells which template it came from. */
  lemma TemplateNamesDistinct()
    ensures forall j, k :: 0 <= j < k < |ItemTemplates| ==> ItemTemplates[j].name != ItemTemplates[k].name
  {
  }

  // ---------------------------------------------------------------------------
  // Which templates are kept, and in what order

  /** The generated items follow the table: item `i` comes from table row
      `rows[i]`, the rows increase strictly, and a row is used exactly when it
      is relevant to the trip. */
  lemma GeneratedInTableOrder(duration: int, tempMin: int, tempMax: int, activities: seq<Activity>)
    ensures var items := GeneratePackingList(duration, tempMin, tempMax, activities);
      var rows := Positions(ItemTemplates, Relevance(tempMin, tempMax, activities));
      && |rows| == |items|
      && (forall i :: 0 <= i < |items| ==>
            && rows[i] < |ItemTemplates|
            && items[i].name == ItemTemplates[rows[i]].name
            && items[i].category == ItemTemplates[rows[i]].category
            && items[i].priority == ItemTemplates[rows[i]].priority
            && items[i].quantity == ScaledQuantity(ItemTemplates[rows[i]].baseQuantity, duration))
      && (forall i, k :: 0 <= i < k < |items| ==> rows[i] < rows[k])
      && (forall j :: 0 <= j < |ItemTemplates| ==>
            (j in rows <==> IsRelevant(ItemTemplates[j], tempMin, tempMax, activities)))
  {
    FilterKeepsOrder(ItemTemplates, Relevance(tempMin, tempMax, activities));
  }

  /** The list holds an item named after table row `j` exactly when that row is relevant. */
  lemma GeneratedIffRelevant(j: nat, duration: int, tempMin: int, tempMax: int, activities: seq<Activity>)
    requires j < |ItemTemplates|
    ensures var items := GeneratePackingList(duration, tempMin, tempMax, activities);
      (exists i :: 0 <= i < |items| && items[i].name == ItemTemplates[j].name)
        <==> IsRelevant(ItemTemplates[j], tempMin, tempMax, activities)
  {
    var items := GeneratePackingList(duration, tempMin, tempMax, activities);
    var rows := Positions(ItemTemplates, Relevance(tempMin, tempMax, activities));
    GeneratedInTableOrder(duration, tempMin, tempMax, activities);
    TemplateNamesDistinct();
    if IsRelevant(ItemTemplates[j], tempMin, tempMax, activities) {
      var i :| 0 <= i < |rows| && rows[i] == j;
      assert items[i].name == ItemTemplates[j].name;
    }
  }

  /** An activity-free template without a temperature range is on every list. */
  lemma CommonItemsAlwaysGenerated(j: nat, duration: int, tempMin: int, tempMax: int, activities: seq<Activity>)
    requires j < |ItemTemplates|
    requires ItemTemplates[j].activities == [] && ItemTemplates[j].tempRange == None
    ensures var items := GeneratePackingList(duration, tempMin, tempMax, activities);
      exists i :: 0 <= i < |items| && items[i].name == ItemTemplates[j].name
  {
    GeneratedIffRelevant(j, duration, tempMin, tempMax, activities);
  }

  /** An activity-free template with a temperature range is on the list exactly
      when its range overlaps the trip's range `[tempMin, tempMax]`. */
  lemma WeatherItemsGeneratedIffOverlap(j: nat, duration: int, tempMin: int, tempMax: int, activities: seq<Activity>)
    requires j < |ItemTemplates|
    requires ItemTemplates[j].activities == [] && ItemTemplates[j].tempRange.Some?
    ensures var items := GeneratePackingList(duration, tempMin, tempMax, activities);
      var range := ItemTemplates[j].tempRange.value;
      (exists i :: 0 <= i < |items| && items[i].name == ItemTemplates[j].name)
        <==> tempMax >= range.min && tempMin <= range.max
  {
    GeneratedIffRelevant(j, duration, tempMin, tempMax, activities);
  }

  /** An activity template is on the list exactly when the trip includes one of
      its activities; the temperature plays no part. */
  lemma ActivityItemsGeneratedIffShared(j: nat, duration: int, tempMin: int, tempMax: int, activities: seq<Activity>)
    requires j < |ItemTemplates|
    requires ItemTemplates[j].activities != []
    ensures var items := GeneratePackingList(duration, tempMin, tempMax, activities);
      (exists i :: 0 <= i < |items| && items[i].name == ItemTemplates[j].name)
        <==> exists a :: a in ItemTemplates[j].activities && a in activities
  {
    GeneratedIffRelevant(j, duration, tempMin, tempMax, activities);
  }

  predicate InRange(x: int, lo: int, hi: int) {
    lo <= x <= hi
  }

  /** For a well-formed trip range, the overlap test used for weather items
      holds exactly when some temperature lies in both ranges. */
  lemma OverlapMeansSharedTemperature(tempMin: int, tempMax: int, range: TempRange)
    requires tempMin <= tempMax && range.min <= range.max
    ensures (tempMax >= range.min && tempMin <= range.max)
      <==> exists x :: InRange(x, tempMin, tempMax) && InRange(x, range.min, range.max)
  {
    if tempMax >= range.min && tempMin <= range.max {
      var x := if tempMin < range.min then range.min else tempMin;
      assert InRange(x, tempMin, tempMax) && InRange(x, range.min, range.max);
    }
  }

  /** The trip's range is not required to be ordered. With a reversed range
      the overlap test still keeps weather clothing, although no temperature
      lies in the trip's range: 20..18 degrees keeps the long pants. */
  lemma ReversedTripRangeKeepsLongPants()
    ensures ItemTemplates[8].name == "Long pants"
    ensures !exists x :: InRange(x, 20, 18)
    ensures IsRelevant(ItemTemplates[8], 20, 18, [])
    ensures exists i :: 0 <= i < |GeneratePackingList(7, 20, 18, [])| && GeneratePackingList(7, 20, 18, [])[i].name == "Long pants"
  {
    GeneratedIffRelevant(8, 7, 20, 18, []);
  }

  /** Adding activities to a trip never removes an item from its list. */
  lemma MoreActivitiesNeverDropItems(duration: int, tempMin: int, tempMax: int, fewer: seq<Activity>, more: seq<Activity>)
    requires forall a :: a in fewer ==> a in more
    ensures |GeneratePackingList(duration, tempMin, tempMax, fewer)| <= |GeneratePackingList(duration, tempMin, tempMax, more)|
    ensures forall j :: 0 <= j < |ItemTemplates| && IsRelevant(ItemTemplates[j], tempMin, tempMax, fewer) ==>
      IsRelevant(ItemTemplates[j], tempMin, tempMax, more)
  {
    FilterMonotone(ItemTemplates, Relevance(tempMin, tempMax, fewer), Relevance(tempMin, tempMax, more));
  }

  /** No activity template is kept for a trip without activities. */
  lemma NoActivitiesKeepsNoGear(tempMin: int, tempMax: int)
    ensures Filter(ItemTemplates[12..], Relevance(tempMin, tempMax, [])) == []
  {
    var gear := ItemTemplates[12..];
    assert forall j :: 0 <= j < |gear| ==> gear[j].activities != [];
    FilterEmptyIff(gear, Relevance(tempMin, tempMax, []));

  }

  /** A mild one-week trip with no activities: the six common items, then the
      weather clothing whose range reaches into 15..25 degrees (every piece but
      the winter jacket). */
  lemma MildWeekWithoutActivities()
    ensures var items := GeneratePackingList(7, 15, 25, []);
      && |items| == 11
      && (forall i :: 0 <= i < 10 ==> items[i].name == ItemTemplates[i].name)
      && items[10].name == "Rain jacket"
  {
    MildWeekKept();
    var kept := RelevantTemplates(15, 25, []);
    assert |kept| == 11 && kept[10] == ItemTemplates[11];
    assert forall i :: 0 <= i < 10 ==> kept[i] == ItemTemplates[i];
  }

  /** The templates kept for a mild trip without activities. */
  lemma MildWeekKept()
    ensures RelevantTemplates(15, 25, []) == ItemTemplates[..10] + [ItemTemplates[11]]
  {
    var p := Relevance(15, 25, []);
    var head, tail, gear := ItemTemplates[..10], ItemTemplates[10..12], ItemTemplates[12..];
    assert head + tail + gear == ItemTemplates;
    FilterAppend(head + tail, gear, p);
    FilterAppend(head, tail, p);
    NoActivitiesKeepsNoGear(15, 25);
    MildWeekKeepsFirstTen();
    MildWeekKeepsRainJacketOnly();
  }

  /** Rows 0..9 all reach into 15..25 degrees or have no range. */
  lemma MildWeekKeepsFirstTen()
    ensures Filter(ItemTemplates[..10], Relevance(15, 25, [])) == ItemTemplates[..10]
  {
    var head := ItemTemplates[..10];
    assert forall i :: 0 <= i < 10 ==> head[i].activities == [];
    FilterKeepsAll(head, Relevance(15, 25, []));
  }

  /** Of rows 10 and 11, the winter jacket (up to 5 degrees) is dropped and the rain jacket kept. */
  lemma MildWeekKeepsRainJacketOnly()
    ensures Filter(ItemTemplates[10..12], Relevance(15, 25, [])) == [ItemTemplates[11]]
  {
    var tail := ItemTemplates[10..12];
    var p := Relevance(15, 25, []);
    assert !p(tail[0]) && p(tail[1]);
    assert tail[..1] == [ItemTemplates[10]] && tail[..1][..0] == [];
    assert Filter(tail[..1], p) == [];
  }

  // ---------------------------------------------------------------------------
  // Quantities

  /** A longer trip never gets a smaller quantity. */
  lemma QuantityMonotoneInDuration(baseQuantity: int, shorter: int, longer: int)
    requires baseQuantity >= 0 && shorter <= longer
    ensures ScaledQuantity(baseQuantity, shorter) <= ScaledQuantity(baseQuantity, longer)
  {
    assert baseQuantity * longer - baseQuantity * shorter == baseQuantity * (longer - shorter);
    assert baseQuantity * (longer - shorter) >= 0;
  }

  /** A trip of whole weeks gets the base quantity once per week. */
  lemma WholeWeeksScaleLinearly(baseQuantity: int, weeks: int)
    requires baseQuantity >= 1 && weeks >= 1
    ensures ScaledQuantity(baseQuantity, 7 * weeks) == baseQuantity * weeks
  {
    assert baseQuantity * (7 * weeks) == 7 * (baseQuantity * weeks);
    assert baseQuantity * weeks >= 1;
  }

  /** On a one-week trip every generated item has its template's base quantity. */
  lemma OneWeekUsesBaseQuantities(tempMin: int, tempMax: int, activities: seq<Activity>)
    ensures var items := GeneratePackingList(7, tempMin, tempMax, activities);
      var kept := RelevantTemplates(tempMin, tempMax, activities);
      forall i :: 0 <= i < |items| ==> items[i].quantity == kept[i].baseQuantity
  {
    var kept := RelevantTemplates(tempMin, tempMax, activities);
    TableIsWellFormed();
    forall i | 0 <= i < |kept|
      ensures ScaledQuantity(kept[i].baseQuantity, 7) == kept[i].baseQuantity
    {
      assert kept[i] in ItemTemplates;
      WholeWeeksScaleLinearly(kept[i].baseQuantity, 1);
    }
  }

  // ---------------------------------------------------------------------------
  // Ids

  /** Distinct positions give distinct ids. */
  lemma ItemIdInjective(i: nat, k: nat)
    requires ItemId(i) == ItemId(k)
    ensures i == k
  {
    assert ItemId(i)[5..] == NatToString(i);
    assert ItemId(k)[5..] == NatToString(k);
    NatToStringInjective(i, k);
  }

  /** The generated items have pairwise distinct ids. */
  lemma GeneratedIdsDistinct(duration: int, tempMin: int, tempMax: int, activities: seq<Activity>)
    ensures var items := GeneratePackingList(duration, tempMin, tempMax, activities);
      forall i, k :: 0 <= i < k < |items| ==> items[i].id != items[k].id
  {
    var items := GeneratePackingList(duration, tempMin, tempMax, activities);
    forall i, k | 0 <= i < k < |items|
      ensures items[i].id != items[k].id
    {
      if items[i].id == items[k].id {
        ItemIdInjective(i, k);
      }
    }
  }
}

=== FILE: page.dfy ===
/** The home page: the trip on screen, its packing list, and every trip and
    list created so far, with the handlers that create trips and edit lists.
    Every edit of the list on screen is written back into `lists` under the
    list's id. */
module Page {
  import opened Wrappers
  import opened Types
  import opened Seqs
  import opened Strings
  import PackingTemplates
  import PackingListView

  // ---------------------------------------------------------------------------
  // Item transforms

  /** `{ ...item, ...updates }`: every field present in `u` overrides the item's own. */
  function Merge(item: PackingItem, u: ItemUpdate): (r: PackingItem)
    ensures u.id.Some? ==> r.id == u.id.value
    ensures u.id.None? ==> r.id == item.id
    ensures u.name.Some? ==> r.name == u.name.value
    ensures u.name.None? ==> r.name == item.name
    ensures u.category.Some? ==> r.category == u.category.value
    ensures u.category.None? ==> r.category == item.category
    ensures u.quantity.Some? ==> r.quantity == u.quantity.value
    ensures u.quantity.None? ==> r.quantity == item.quantity
    ensures u.packed.Some? ==> r.packed == u.packed.value
    ensures u.packed.None? ==> r.packed == item.packed
    ensures u.priority.Some? ==> r.priority == u.priority.value
    ensures u.priority.None? ==> r.priority == item.priority
    ensures u.notes.Some? ==> r.notes == u.notes
    ensures u.notes.None? ==> r.notes == item.notes
  {
    PackingItem(u.id.GetOr(item.id), u.name.GetOr(item.name), u.category.GetOr(item.category),
                u.quantity.GetOr(item.quantity), u.packed.GetOr(item.packed),
                u.priority.GetOr(item.priority), if u.notes.Some? then u.notes else item.notes)
  }

  /** Merging twice is merging once, and merging the empty update changes nothing. */
  lemma MergeIdempotent(item: PackingItem, u: ItemUpdate)
    ensures Merge(Merge(item, u), u) == Merge(item, u)
    ensures Merge(item, NoUpdate) == item
  {
  }

  /** The items after an update: every item with the given id has the update
      merged in, every other item is untouched, and the order is kept. */
  function UpdateItems(items: seq<PackingItem>, itemId: string, u: ItemUpdate): (r: seq<PackingItem>)
    ensures |r| == |items|
    ensures forall i :: 0 <= i < |items| && items[i].id == itemId ==> r[i] == Merge(items[i], u)
    ensures forall i :: 0 <= i < |items| && items[i].id != itemId ==> r[i] == items[i]
  {
    seq(|items|, i requires 0 <= i < |items| => if items[i].id == itemId then Merge(items[i], u) else items[i])
  }

  /** Updating an id no item carries leaves the list as it was. */
  lemma UpdateOfAbsentIdChangesNothing(items: seq<PackingItem>, itemId: string, u: ItemUpdate)
    requires forall i :: 0 <= i < |items| ==> items[i].id != itemId
    ensures UpdateItems(items, itemId, u) == items
  {
  }

  /** Repeating an update has no further effect, even one that changes the id. */
  lemma UpdateItemsIdempotent(items: seq<PackingItem>, itemId: string, u: ItemUpdate)
    ensures UpdateItems(UpdateItems(items, itemId, u), itemId, u) == UpdateItems(items, itemId, u)
  {
    var once := UpdateItems(items, itemId, u);
    forall i | 0 <= i < |items|
      ensures UpdateItems(once, itemId, u)[i] == once[i]
    {
      if items[i].id == itemId {
        MergeIdempotent(items[i], u);
      }
    }
  }

  /** Ticking an item sets `packed` on the items with its id and changes nothing else. */
  lemma ToggleChangesOnlyPacked(items: seq<PackingItem>, itemId: string, packed: bool)
    ensures var call := PackingListView.HandleTogglePacked(itemId, packed);
      var r := UpdateItems(items, call.itemId, call.updates);
      && |r| == |items|
      && forall i :: 0 <= i < |items| ==>
           r[i] == items[i].(packed := if items[i].id == itemId then packed else items[i].packed)
  {
  }

  /** Quantity edits through the view never make a positive quantity zero or negative. */
  lemma QuantityEditsKeepQuantitiesPositive(items: seq<PackingItem>, itemId: string, quantity: int)
    requires forall i :: 0 <= i < |items| ==> items[i].quantity >= 1
    ensures var call := PackingListView.HandleQuantityChange(itemId, quantity);
      var r := if call.Some? then UpdateItems(items, call.value.itemId, call.value.updates) else items;
      forall i :: 0 <= i < |r| ==> r[i].quantity >= 1
  {
  }

  function HasOtherId(itemId: string): PackingItem -> bool {
    (item: PackingItem) => item.id != itemId
  }

  /** The items after a removal: those whose id differs from `itemId`. */
  function RemoveItems(items: seq<PackingItem>, itemId: string): (r: seq<PackingItem>)
    ensures forall i :: 0 <= i < |r| ==> r[i].id != itemId
  {
    Filter(items, HasOtherId(itemId))
  }

  /** Removal drops exactly the items with the given id and keeps the others
      in their original order: the k-th remaining item is `items[kept[k]]`
      for increasing positions `kept`. */
  lemma RemoveKeepsOthersInOrder(items: seq<PackingItem>, itemId: string)
    ensures var r := RemoveItems(items, itemId);
      var kept := Positions(items, HasOtherId(itemId));
      && |kept| == |r|
      && (forall k :: 0 <= k < |r| ==> kept[k] < |items| && r[k] == items[kept[k]])
      && (forall k, l :: 0 <= k < l < |kept| ==> kept[k] < kept[l])
      && (forall j :: 0 <= j < |items| ==> (j in kept <==> items[j].id != itemId))
  {
    FilterKeepsOrder(items, HasOtherId(itemId));
  }

  /** Removing an item just added under a fresh id gives back the list before the add. */
  lemma AddThenRemoveRestores(items: seq<PackingItem>, added: PackingItem)
    requires forall i :: 0 <= i < |items| ==> items[i].id != added.id
    ensures RemoveItems(items + [added], added.id) == items
  {
    FilterAppend(items, [added], HasOtherId(added.id));
    FilterKeepsAll(items, HasOtherId(added.id));
    assert [added][..0] == [];
  }

  // ---------------------------------------------------------------------------
  // Lists

  /** `lists` with every list whose id is `listId` replaced by `updated`. */
  function ReplaceList(lists: seq<PackingList>, listId: string, updated: PackingList): (r: seq<PackingList>)
    ensures |r| == |lists|
    ensures forall k :: 0 <= k < |lists| && lists[k].id == listId ==> r[k] == updated
    ensures forall k :: 0 <= k < |lists| && lists[k].id != listId ==> r[k] == lists[k]
  {
    seq(|lists|, k requires 0 <= k < |lists| => if lists[k].id == listId then updated else lists[k])
  }

  /** After a write-back the updated list is stored whenever a list with its id
      was, and every stored list is either the updated one or an old list with
      another id. */
  lemma ReplaceListStoresUpdated(lists: seq<PackingList>, listId: string, updated: PackingList)
    ensures (exists k :: 0 <= k < |lists| && lists[k].id == listId) ==> updated in ReplaceList(lists, listId, updated)
    ensures forall l :: l in ReplaceList(lists, listId, updated) ==> l == updated || (l in lists && l.id != listId)
  {
    var r := ReplaceList(lists, listId, updated);
    if exists k :: 0 <= k < |lists| && lists[k].id == listId {
      var k :| 0 <= k < |lists| && lists[k].id == listId;
      assert r[k] == updated;
    }
  }

  /** `lists.find(l => l.tripId === tripId)`: the first list of the trip, if any. */
  function FindListForTrip(lists: seq<PackingList>, tripId: string): (r: Option<PackingList>)
    ensures r.None? <==> forall k :: 0 <= k < |lists| ==> lists[k].tripId != tripId
    ensures r.Some? ==> exists k :: 0 <= k < |lists| && lists[k] == r.value && r.value.tripId == tripId
                          && forall j :: 0 <= j < k ==> lists[j].tripId != tripId
    decreases |lists|
  {
    if lists == [] then None
    else if lists[0].tripId == tripId then Some(lists[0])
    else
      var rest := FindListForTrip(lists[1..], tripId);
      assert forall k :: 1 <= k < |lists| ==> lists[k] == lists[1..][k - 1];
      rest
  }

  /** The packed and total counts shown on a trip's card: those of its list, or 0 and 0. */
  function TripCardCounts(lists: seq<PackingList>, tripId: string): (counts: (nat, nat))
    ensures counts.0 <= counts.1
    ensures FindListForTrip(lists, tripId).None? ==> counts == (0, 0)
    ensures FindListForTrip(lists, tripId).Some? ==>
      && counts.0 == PackingListView.PackedCount(FindListForTrip(lists, tripId).value.items)
      && counts.1 == |FindListForTrip(lists, tripId).value.items|
  {
    match FindListForTrip(lists, tripId)
    case None => (0, 0)
    case Some(list) => (PackingListView.PackedCount(list.items), |list.items|)
  }

  // ---------------------------------------------------------------------------
  // The page state

  /** The name a generated list receives: the trip's name, then a fixed suffix. */
  function ListName(tripName: string): (r: string)
    ensures |r| == |tripName| + 15
    ensures r[..|tripName|] == tripName && r[|tripName|..] == " - Packing List"
  {
    tripName + " - Packing List"
  }

  class Home {
    var currentTrip: Option<Trip>
    var packingList: Option<PackingList>
    var trips: seq<Trip>
    var lists: seq<PackingList>

    /** The list on screen is stored in `lists` and belongs to the trip on screen. */
    ghost predicate Valid()
      reads this
    {
      packingList.Some? ==>
        && currentTrip.Some?
        && packingList.value.tripId == currentTrip.value.id
        && packingList.value in lists
    }

    constructor ()
      ensures Valid()
      ensures currentTrip == None && packingList == None && trips == [] && lists == []
    {
      currentTrip, packingList, trips, lists := None, None, [], [];
    }

    /** Creating a trip appends it and its generated list, and puts both on screen.
        `tripStamp` and `listStamp` stand for the two clock readings in the ids. */
    method HandleTripSubmit(tripData: TripDraft, tripStamp: nat, listStamp: nat)
      requires Valid()
      modifies this
      ensures Valid()
      ensures currentTrip.Some? && packingList.Some?
      ensures currentTrip.value == tripData.WithId("trip-" + NatToString(tripStamp))
      ensures packingList.value == PackingList(
        "list-" + NatToString(listStamp), currentTrip.value.id, ListName(tripData.name),
        PackingTemplates.GeneratePackingList(tripData.duration, tripData.tempMin, tripData.tempMax, tripData.activities))
      ensures trips == old(trips) + [currentTrip.value]
      ensures lists == old(lists) + [packingList.value]
    {
      var newTrip := tripData.WithId("trip-" + NatToString(tripStamp));
      var generatedItems := PackingTemplates.GeneratePackingList(
        tripData.duration, tripData.tempMin, tripData.tempMax, tripData.activities);
      var newPackingList := PackingList("list-" + NatToString(listStamp), newTrip.id, ListName(tripData.name), generatedItems);
      trips := trips + [newTrip];
      lists := lists + [newPackingList];
      currentTrip := Some(newTrip);
      packingList := Some(newPackingList);
    }

    /** Replaces the items of the list on screen and writes the list back into `lists`. */
    method Commit(items: seq<PackingItem>)
      requires Valid() && packingList.Some?
      modifies this
      ensures Valid()
      ensures currentTrip == old(currentTrip) && trips == old(trips)
      ensures packingList == Some(old(packingList).value.(items := items))
      ensures lists == ReplaceList(old(lists), old(packingList).value.id, packingList.value)
    {
      var updatedList := packingList.value.(items := items);
      ReplaceListStoresUpdated(lists, updatedList.id, updatedList);
      packingList := Some(updatedList);
      lists := ReplaceList(lists, updatedList.id, updatedList);
    }

    /** Merges `updates` into the items with id `itemId`; with no list on screen nothing changes. */
    method HandleItemUpdate(itemId: string, updates: ItemUpdate)
      requires Valid()
      modifies this
      ensures Valid()
      ensures currentTrip == old(currentTrip) && trips == old(trips)
      ensures old(packingList).None? ==> packingList == old(packingList) && lists == old(lists)
      ensures old(packingList).Some? ==>
        && packingList == Some(old(packingList).value.(items := UpdateItems(old(packingList).value.items, itemId, updates)))
        && lists == ReplaceList(old(lists), old(packingList).value.id, packingList.value)
    {
      if packingList.None? {
        return;
      }
      Commit(UpdateItems(packingList.value.items, itemId, updates));
    }

    /** Appends a new item with id `item-<itemStamp>`; with no list on screen nothing changes. */
    method HandleItemAdd(newItemData: ItemDraft, itemStamp: nat)
      requires Valid()
      modifies this
      ensures Valid()
      ensures currentTrip == old(currentTrip) && trips == old(trips)
      ensures old(packingList).None? ==> packingList == old(packingList) && lists == old(lists)
      ensures old(packingList).Some? ==>
        && packingList == Some(old(packingList).value.(items := old(packingList).value.items
                                                        + [newItemData.WithId("item-" + NatToString(itemStamp))]))
        && lists == ReplaceList(old(lists), old(packingList).value.id, packingList.value)
    {
      if packingList.None? {
        return;
      }
      var newItem := newItemData.WithId("item-" + NatToString(itemStamp));
      Commit(packingList.value.items + [newItem]);
    }

    /** Removes every item with id `itemId`; with no list on screen nothing changes. */
    method HandleItemRemove(itemId: string)
      requires Valid()
      modifies this
      ensures Valid()
      ensures currentTrip == old(currentTrip) && trips == old(trips)
      ensures old(packingList).None? ==> packingList == old(packingList) && lists == old(lists)
      ensures old(packingList).Some? ==>
        && packingList == Some(old(packingList).value.(items := RemoveItems(old(packingList).value.items, itemId)))
        && lists == ReplaceList(old(lists), old(packingList).value.id, packingList.value)
    {
      if packingList.None? {
        return;
      }
      Commit(RemoveItems(packingList.value.items, itemId));
    }

    /** Leaves the current trip: nothing is on screen, and every trip and list is kept. */
    method HandleNewTrip()
      requires Valid()
      modifies this
      ensures Valid()
      ensures currentTrip == None && packingList == None
      ensures trips == old(trips) && lists == old(lists)
    {
      currentTrip := None;
      packingList := None;
    }

    /** Puts a trip on screen with the first stored list of that trip, or with no list. */
    method HandleLoadTrip(trip: Trip)
      requires Valid()
      modifies this
      ensures Valid()
      ensures currentTrip == Some(trip)
      ensures packingList == FindListForTrip(lists, trip.id)
      ensures trips == old(trips) && lists == old(lists)
    {
      var list := FindListForTrip(lists, trip.id);
      currentTrip := Some(trip);
      packingList := list;
    }
  }
}

=== FILE: seqs.dfy ===
/** `Array.prototype.filter` on sequences, with the facts the rest of the model relies on. */
module Seqs {

  /** Keeps, in their original order, exactly the elements that satisfy `p`. */
  function Filter<T>(s: seq<T>, p: T -> bool): (r: seq<T>)
    ensures |r| <= |s|
    ensures forall i :: 0 <= i < |r| ==> r[i] in s && p(r[i])
    ensures forall i :: 0 <= i < |s| && p(s[i]) ==> s[i] in r
    decreases |s|
  {
    if s == [] then []
    else Filter(s[..|s| - 1], p) + (if p(s[|s| - 1]) then [s[|s| - 1]] else [])
  }

  /** The indices of `s` whose element satisfies `p`, in increasing order:
      an independent description of what `Filter` selects. */
  ghost function Positions<T>(s: seq<T>, p: T -> bool): (r: seq<nat>)
    ensures forall k :: 0 <= k < |r| ==> r[k] < |s| && p(s[r[k]])
    ensures forall k, l :: 0 <= k < l < |r| ==> r[k] < r[l]
    ensures forall j :: 0 <= j < |s| && p(s[j]) ==> j in r
    decreases |s|
  {
    if s == [] then []
    else Positions(s[..|s| - 1], p) + (if p(s[|s| - 1]) then [|s| - 1] else [])
  }

  /** The k-th kept element is the element of `s` at the k-th selected index:
      `Filter` keeps every selected element, drops the others, and keeps their order. */
  lemma {:induction false} FilterKeepsOrder<T>(s: seq<T>, p: T -> bool)
    ensures |Filter(s, p)| == |Positions(s, p)|
    ensures forall k :: 0 <= k < |Filter(s, p)| ==> Filter(s, p)[k] == s[Positions(s, p)[k]]
    decreases |s|
  {
    if s != [] {
      var init, last := s[..|s| - 1], s[|s| - 1];
      FilterKeepsOrder(init, p);
      var f, ps := Filter(init, p), Positions(init, p);
      if p(last) {
        assert Filter(s, p) == f + [last] && Positions(s, p) == ps + [|s| - 1];
      } else {
        assert Filter(s, p) == f && Positions(s, p) == ps;
      }
      forall k | 0 <= k < |f|
        ensures Filter(s, p)[k] == s[Positions(s, p)[k]]
      {
        assert Filter(s, p)[k] == f[k] && Positions(s, p)[k] == ps[k];
      }
    }
  }

  /** Filtering a concatenation filters each part. */
  lemma {:induction false} FilterAppend<T>(a: seq<T>, b: seq<T>, p: T -> bool)
    ensures Filter(a + b, p) == Filter(a, p) + Filter(b, p)
    decreases |b|
  {
    if b == [] {
      assert a + b == a;
    } else {
      var b' := b[..|b| - 1];
      assert (a + b)[..|a + b| - 1] == a + b';
      FilterAppend(a, b', p);
    }
  }

  /** When every element satisfies `p`, `Filter` returns its input unchanged. */
  lemma {:induction false} FilterKeepsAll<T>(s: seq<T>, p: T -> bool)
    requires forall i :: 0 <= i < |s| ==> p(s[i])
    ensures Filter(s, p) == s
    decreases |s|
  {
    if s != [] {
      FilterKeepsAll(s[..|s| - 1], p);
      assert s[..|s| - 1] + [s[|s| - 1]] == s;
    }
  }

  /** `Filter` keeps nothing exactly when no element satisfies `p`. */
  lemma FilterEmptyIff<T>(s: seq<T>, p: T -> bool)
    ensures Filter(s, p) == [] <==> forall i :: 0 <= i < |s| ==> !p(s[i])
  {
    if Filter(s, p) != [] {
      assert Filter(s, p)[0] in s;
    }
  }

  /** `Filter` drops nothing exactly when every element satisfies `p`. */
  lemma {:induction false} FilterFullIff<T>(s: seq<T>, p: T -> bool)
    ensures |Filter(s, p)| == |s| <==> forall i :: 0 <= i < |s| ==> p(s[i])
    decreases |s|
  {
    if s != [] {
      var init, last := s[..|s| - 1], s[|s| - 1];
      FilterFullIff(init, p);
      if |Filter(s, p)| == |s| {
        assert p(last) && |Filter(init, p)| == |init|;
        forall i | 0 <= i < |s|
          ensures p(s[i])
        {
          if i < |s| - 1 {
            assert s[i] == init[i];
          }
        }
      }
      if forall i :: 0 <= i < |s| ==> p(s[i]) {
        FilterKeepsAll(s, p);
      }
    }
  }

  /** A weaker predicate keeps at least as many elements. */
  lemma {:induction false} FilterMonotone<T>(s: seq<T>, p: T -> bool, q: T -> bool)
    requires forall i :: 0 <= i < |s| && p(s[i]) ==> q(s[i])
    ensures |Filter(s, p)| <= |Filter(s, q)|
    decreases |s|
  {
    if s != [] {
      var init := s[..|s| - 1];
      assert forall i :: 0 <= i < |init| ==> init[i] == s[i];
      FilterMonotone(init, p, q);
    }
  }
}

=== FILE: strings.dfy ===
/** The two pieces of JavaScript string behaviour the core relies on:
    printing a non-negative integer in a template literal (`item-${index}`)
    and `String.prototype.trim`. */
module Strings {

  predicate IsDigit(c: char) {
    '0' <= c <= '9'
  }

  function DigitChar(d: nat): (c: char)
    requires d < 10
    ensures IsDigit(c)
  {
    (48 + d) as char
  }

  function DigitValue(c: char): nat
    requires IsDigit(c)
  {
    c as int - 48
  }

  /** Decimal rendering of `n`: what `${n}` produces for a non-negative integer. */
  function NatToString(n: nat): (s: string)
    ensures 1 <= |s|
    ensures forall i :: 0 <= i < |s| ==> IsDigit(s[i])
    ensures |s| == 1 <==> n < 10
    ensures |s| > 1 ==> s[0] != '0'
    decreases n
  {
    if n < 10 then [DigitChar(n)]
    else NatToString(n / 10) + [DigitChar(n % 10)]
  }

  /** The value of a string of decimal digits (the reading direction of `NatToString`). */
  function DecimalValue(s: string): nat
    requires forall i :: 0 <= i < |s| ==> IsDigit(s[i])
    decreases |s|
  {
    if s == [] then 0
    else DecimalValue(s[..|s| - 1]) * 10 + DigitValue(s[|s| - 1])
  }

  /** Reading back a rendered number gives the number. */
  lemma {:induction false} DecimalRoundTrip(n: nat)
    ensures DecimalValue(NatToString(n)) == n
    decreases n
  {
    var s := NatToString(n);
    if n < 10 {
      assert s[..|s| - 1] == [];
    } else {
      DecimalRoundTrip(n / 10);
      assert s[..|s| - 1] == NatToString(n / 10);
      assert DigitValue(s[|s| - 1]) == n % 10;
    }
  }

  /** Distinct numbers render as distinct strings. */
  lemma NatToStringInjective(m: nat, n: nat)
    requires NatToString(m) == NatToString(n)
    ensures m == n
  {
    DecimalRoundTrip(m);
    DecimalRoundTrip(n);
  }

  /** The characters `trim` removes: ECMAScript WhiteSpace and LineTerminator code points. */
  predicate IsWhitespace(c: char) {
    || c == '\t' || c == '\n' || c == '\U{000B}' || c == '\U{000C}' || c == '\r'
    || c == ' ' || c == '\U{00A0}' || c == '\U{1680}'
    || ('\U{2000}' <= c <= '\U{200A}')
    || c == '\U{2028}' || c == '\U{2029}' || c == '\U{202F}' || c == '\U{205F}'
    || c == '\U{3000}' || c == '\U{FEFF}'
  }

  /** `s` with its leading whitespace removed. */
  function TrimStart(s: string): (r: string)
    ensures |r| <= |s| && r == s[|s| - |r|..]
    ensures forall i :: 0 <= i < |s| - |r| ==> IsWhitespace(s[i])
    ensures r == [] || !IsWhitespace(r[0])
    decreases |s|
  {
    if s != [] && IsWhitespace(s[0]) then TrimStart(s[1..]) else s
  }

  /** `s` with its trailing whitespace removed. */
  function TrimEnd(s: string): (r: string)
    ensures |r| <= |s| && r == s[..|r|]
    ensures forall i :: |r| <= i < |s| ==> IsWhitespace(s[i])
    ensures r == [] || !IsWhitespace(r[|r| - 1])
    decreases |s|
  {
    if s != [] && IsWhitespace(s[|s| - 1]) then TrimEnd(s[..|s| - 1]) else s
  }

  /** `String.prototype.trim`: empty exactly when `s` holds nothing but whitespace. */
  function Trim(s: string): (r: string)
    ensures r == [] <==> forall i :: 0 <= i < |s| ==> IsWhitespace(s[i])
    ensures r != [] ==> !IsWhitespace(r[0]) && !IsWhitespace(r[|r| - 1])
    ensures |r| <= |s|
    ensures var k := |s| - |TrimStart(s)|;
      && k + |r| <= |s| && r == s[k..k + |r|]
      && (forall i :: 0 <= i < k ==> IsWhitespace(s[i]))
      && (forall i :: k + |r| <= i < |s| ==> IsWhitespace(s[i]))
  {
    var front := TrimStart(s);
    var r := TrimEnd(front);
    TrimmedIsSlice(s, front, r);
    r
  }

  /** A prefix of a suffix is a slice, and whatever follows the prefix inside
      the suffix follows the slice in the whole. When the suffix starts with a
      non-blank character, the slice is empty only if `s` is blank. */
  lemma TrimmedIsSlice(s: string, front: string, r: string)
    requires |front| <= |s| && front == s[|s| - |front|..]
    requires |r| <= |front| && r == front[..|r|]
    requires forall i :: 0 <= i < |s| - |front| ==> IsWhitespace(s[i])
    requires forall i :: |r| <= i < |front| ==> IsWhitespace(front[i])
    requires front == [] || !IsWhitespace(front[0])
    ensures var k := |s| - |front|;
      && k + |r| <= |s| && r == s[k..k + |r|]
      && (forall i :: k + |r| <= i < |s| ==> IsWhitespace(s[i]))
    ensures r == [] <==> forall i :: 0 <= i < |s| ==> IsWhitespace(s[i])
    ensures r != [] ==> !IsWhitespace(r[0])
  {
    var k := |s| - |front|;
    if front != [] {
      assert s[k] == front[0];
    }
    forall i | k + |r| <= i < |s|
      ensures IsWhitespace(s[i])
    {
      assert s[i] == front[i - k];
    }
  }

}

=== FILE: trip_form.dfy ===
/** The trip form: its initial values and the activity checkboxes. */
module TripForm {
  import opened Wrappers
  import opened Types
  import opened Seqs
  import opened Strings
  import PackingTemplates
  import Page

  /** The form's values before the user edits anything. */
  const InitialFormData: TripDraft := TripDraft("", 7, 15, 25, [], Some(""))

  function IsNot(activity: Activity): Activity -> bool {
    (a: Activity) => a != activity
  }

  /** The activities after a checkbox changes: a checked activity is appended,
      an unchecked one is filtered out. */
  function ToggledActivities(activities: seq<Activity>, activity: Activity, checked: bool): (r: seq<Activity>)
    ensures checked ==> r == activities + [activity]
    ensures !checked ==> activity !in r
    ensures !checked ==> forall a :: a != activity ==> (a in r <==> a in activities)
  {
    if checked then activities + [activity] else Filter(activities, IsNot(activity))
  }

  /** A checkbox shows as ticked (`activities.includes(value)`) exactly when its
      last change checked it. */
  lemma CheckboxReflectsLastChange(activities: seq<Activity>, activity: Activity, checked: bool)
    ensures activity in ToggledActivities(activities, activity, checked) <==> checked
  {
  }

  /** Unchecking keeps every other activity, in its original order. */
  lemma UncheckKeepsOthersInOrder(activities: seq<Activity>, activity: Activity)
    ensures var r := ToggledActivities(activities, activity, false);
      var kept := Positions(activities, IsNot(activity));
      && |kept| == |r|
      && (forall k :: 0 <= k < |r| ==> kept[k] < |activities| && r[k] == activities[kept[k]])
      && (forall k, l :: 0 <= k < l < |kept| ==> kept[k] < kept[l])
      && (forall j :: 0 <= j < |activities| ==> (j in kept <==> activities[j] != activity))
  {
    FilterKeepsOrder(activities, IsNot(activity));
  }

  /** Checking and then unchecking an activity that was not selected restores the selection. */
  lemma CheckThenUncheckRestores(activities: seq<Activity>, activity: Activity)
    requires activity !in activities
    ensures ToggledActivities(ToggledActivities(activities, activity, true), activity, false) == activities
  {
    FilterAppend(activities, [activity], IsNot(activity));
    FilterKeepsAll(activities, IsNot(activity));
    assert [activity][..0] == [];
  }

  class TripFormState {
    var formData: TripDraft

    constructor ()
      ensures formData == InitialFormData
    {
      formData := InitialFormData;
    }

    /** A checkbox change updates the activities and no other field. */
    method HandleActivityChange(activity: Activity, checked: bool)
      modifies this
      ensures formData == old(formData).(activities := ToggledActivities(old(formData.activities), activity, checked))
    {
      formData := formData.(activities := ToggledActivities(formData.activities, activity, checked));
    }

    /** Typing in the name field replaces the name and no other field. */
    method HandleNameChange(name: string)
      modifies this
      ensures formData == old(formData).(name := name)
    {
      formData := formData.(name := name);
    }

    /** Submitting hands the form's values to the page's trip handler: the
        trip built from them and its generated list go on screen. The browser
        submits only when the required name is filled in and the duration lies
        within the input's bounds of 1 to 30 days. */
    method HandleSubmit(home: Page.Home, tripStamp: nat, listStamp: nat)
      requires formData.name != [] && 1 <= formData.duration <= 30
      requires home.Valid()
      modifies home
      ensures home.Valid()
      ensures home.currentTrip == Some(formData.WithId("trip-" + NatToString(tripStamp)))
      ensures home.packingList == Some(PackingList(
        "list-" + NatToString(listStamp), home.currentTrip.value.id, Page.ListName(formData.name),
        PackingTemplates.GeneratePackingList(formData.duration, formData.tempMin, formData.tempMax, formData.activities)))
      ensures home.trips == old(home.trips) + [home.currentTrip.value]
      ensures home.lists == old(home.lists) + [home.packingList.value]
    {
      home.HandleTripSubmit(formData, tripStamp, listStamp);
    }
  }

  /** Filling in only the name and submitting on a fresh page: a one-week trip
      at 15..25 degrees without activities, whose list is on screen with the six
      common items, the four matching clothes and the rain jacket. */
  method SubmitWithDefaults(name: string, tripStamp: nat, listStamp: nat) returns (trip: Trip, list: PackingList)
    requires name != []
    ensures trip.name == name
    ensures trip.id == "trip-" + NatToString(tripStamp) && trip.duration == 7
    ensures trip.tempMin == 15 && trip.tempMax == 25 && trip.activities == []
    ensures list.id == "list-" + NatToString(listStamp) && list.tripId == trip.id
    ensures |list.items| == 11
    ensures forall i :: 0 <= i < 10 ==> list.items[i].name == PackingTemplates.ItemTemplates[i].name
    ensures list.items[10].name == "Rain jacket"
    ensures forall i :: 0 <= i < |list.items| ==> !list.items[i].packed
  {
    var form := new TripFormState();
    form.HandleNameChange(name);
    var home := new Page.Home();
    form.HandleSubmit(home, tripStamp, listStamp);
    trip, list := home.currentTrip.value, home.packingList.value;
    assert list.items == PackingTemplates.GeneratePackingList(7, 15, 25, []);
    PackingTemplates.MildWeekWithoutActivities();
  }
}

=== FILE: types.dfy ===
/** The records and enumerations shared by the whole application.
    Timestamps (`createdAt`, `updatedAt`) are not part of this model. */
module Types {
  import opened Wrappers

  datatype Activity = Camping | Cycling | Hiking

  datatype Category = Camping | Cycling | Hiking | Hygiene | Clothes | Common | Devices | Others

  datatype Priority = High | Medium | Low

  datatype PackingItem = PackingItem(
    id: string,
    name: string,
    category: Category,
    quantity: int,
    packed: bool,
    priority: Priority,
    notes: Option<string>)

  datatype Trip = Trip(
    id: string,
    name: string,
    duration: int,
    tempMin: int,
    tempMax: int,
    activities: seq<Activity>,
    destination: Option<string>)

  datatype PackingList = PackingList(
    id: string,
    tripId: string,
    name: string,
    items: seq<PackingItem>)

  /** A trip before it is given an id: what the trip form submits. */
  datatype TripDraft = TripDraft(
    name: string,
    duration: int,
    tempMin: int,
    tempMax: int,
    activities: seq<Activity>,
    destination: Option<string>)
  {
    /** `{ ...tripData, id }` */
    function WithId(id: string): Trip {
      Trip(id, name, duration, tempMin, tempMax, activities, destination)
    }
  }

  /** An item before it is given an id: what the add-item form submits. */
  datatype ItemDraft = ItemDraft(
    name: string,
    category: Category,
    quantity: int,
    packed: bool,
    priority: Priority,
    notes: Option<string>)
  {
    /** `{ ...newItemData, id }` */
    function WithId(id: string): PackingItem {
      PackingItem(id, name, category, quantity, packed, priority, notes)
    }
  }

  /** A partial item: each present field overrides the item's own. */
  datatype ItemUpdate = ItemUpdate(
    id: Option<string>,
    name: Option<string>,
    category: Option<Category>,
    quantity: Option<int>,
    packed: Option<bool>,
    priority: Option<Priority>,
    notes: Option<string>)

  /** The update with no field present. */
  const NoUpdate: ItemUpdate := ItemUpdate(None, None, None, None, None, None, None)
}

=== FILE: wrappers.dfy ===
/** Optional values: TypeScript's `T | null` and optional (`?`) fields. */
module Wrappers {

  datatype Option<+T> = None | Some(value: T) {

    /** The wrapped value, or `default` when there is none (JavaScript's `x ?? default`). */
    function GetOr(default: T): T {
      match this
      case Some(v) => v
      case None => default
    }
  }
}
